=== FILE: README.md ===
# MultiTabLauncher core, modelled in Dafny

MultiTabLauncher is a Win32 launcher that shows a tabbed grid of buttons; each
button starts a configured program, optionally elevated ("runas"), with
optional parameters and `%VAR%` expansion. Its configuration lives in an INI
file beside the executable. This project models the logic beneath the GUI in
`source/MultiTabLauncher/main.cpp` as pure Dafny functions over an abstract
INI store and abstract operating-system answers, and proves what the code
promises:

- `Whitespace` — `ltrim`, `rtrim`, `trim`; the character class (`iswspace`) is a parameter.
- `WideString` — the length of a `std::wstring` in UTF-16 code units.
- `Decimal` — `std::to_wstring` for the numbers inside INI keys and the error report.
- `Profile` — the INI store as a map from (section, key) to text; `GetPrivateProfileStringW`,
  `GetPrivateProfileIntW`, `WritePrivateProfileStringW`, and the grow-and-retry buffer loop of `ReadStringFromIni`.
- `Config` — `LoadConfigurationFromFile` (tab-count clamp, dimension defaults, tab-name fallback,
  dense grid of trimmed buttons) and `SaveButtonConfigurationToFile` (four keys in section `Tab{t}`),
  with the key-layout lemmas that make save-then-load a round trip.
- `ButtonIds` — control ids `1000 + tab*perTab + row*cols + col`, the `WM_COMMAND` dispatch and the
  layout's `(row, col)` recovery, proved to be inverse to each other.
- `Launch` — `ExpandEnvironmentVariables`, `ResolveExecutablePath` (launcher directory, then
  `SearchPathW`, then the name unchanged), `LaunchApplication` (one attempt, one retry on a
  different resolved path, result code classification) and `OnLaunchButtonClick`.
- `Utf16` — `WriteUtf16LeFile`: mark `FF FE`, then two little-endian bytes per code unit.

The operating system enters through two records of functions: `Config.Platform`
(`iswspace` and `GetPrivateProfileIntW`'s number parsing) and `Launch.Os`
(the launcher's directory, `std::filesystem` path append and `exists`,
`SearchPathW`, `ExpandEnvironmentStringsW`, `ShellExecuteW`). Write success of
the INI API is a function `WriteOracle`, and whether the output file could be
opened is a flag.

The INI API matches section and key names without regard to letter case. The
`Profile.Store` map is keyed by the spellings the launcher itself uses
("Tabs", "Tab0", "Button0_Name", ...), each key standing for all spellings
that differ from it only in case; a hand-edited file is read as if its names
had been rewritten in those spellings.

Texts are Dafny strings of Unicode characters, while a `std::wstring` counts
UTF-16 code units; `WideString.WideLength` gives the code-unit length (two
units for a character beyond U+FFFF), and every length bound the launcher
checks is stated in it. Tab names are not trimmed by the loader (only button
texts are); a name of blanks is kept as long as it is 1 to 30 code units long.
The retry in `LaunchApplication` resolves the environment-expanded path
(main.cpp:734), not the path as configured. Result codes are those of the
Windows SDK: `ERROR_FILE_NOT_FOUND` 2, `ERROR_PATH_NOT_FOUND` 3,
`SE_ERR_ACCESSDENIED` 5, `SE_ERR_OOM` 8, `ERROR_BAD_FORMAT` 11,
`SE_ERR_ASSOCINCOMPLETE` 27, `SE_ERR_NOASSOC` 31.

A click reaches `WM_COMMAND` with only the 16-bit `LOWORD` of the button's
control id. `ButtonIds` proves the dispatch exact whenever
1000 + tabCount * perTab <= 65536 (the default grid uses ids 1000 to 1239) and
exhibits the aliasing past that bound. Such a grid needs more than 64,000
button windows, beyond the default Windows limit of 10,000 user objects per
process, so the aliasing is recorded as a property of the arithmetic, not as
a defect of the launcher.

## Model

| member | source | states |
|---|---|---|
| Whitespace.FirstNonSpace | source/MultiTabLauncher/main.cpp:897-903 | the front scan stops at the first non-space character: everything before it is whitespace, and it is |s| only when all of s is |
| Whitespace.EndOfNonSpace | source/MultiTabLauncher/main.cpp:905-911 | the reverse scan stops one past the last non-space character: everything after it is whitespace |
| Whitespace.LTrim | source/MultiTabLauncher/main.cpp:897-903 | `ltrim` keeps a suffix of s, removes only whitespace, and leaves no leading whitespace |
| Whitespace.RTrim | source/MultiTabLauncher/main.cpp:905-911 | `rtrim` keeps a prefix of s, removes only whitespace, and leaves no trailing whitespace |
| Whitespace.Trim | source/MultiTabLauncher/main.cpp:913-917 | `trim` returns a contiguous slice of s starting at its first non-space, followed only by whitespace, with whitespace at neither end |
| Whitespace.TrimOfTrimmed | source/MultiTabLauncher/main.cpp:913-917 | a string with no whitespace at either end is returned unchanged |
| Whitespace.TrimIdempotent | source/MultiTabLauncher/main.cpp:913-917 | trimming twice is trimming once |
| Whitespace.TrimUnique | source/MultiTabLauncher/main.cpp:897-917 | for any split of s into whitespace, a middle with non-space ends, and whitespace, `trim` returns exactly that middle |
| Decimal.NatToString | source/MultiTabLauncher/main.cpp:605-606 | `std::to_wstring` of an index is a non-empty run of digits without a leading zero |
| Decimal.IntToString | source/MultiTabLauncher/main.cpp:751 | `std::to_wstring` of the result code: a minus sign exactly for negatives, followed by digits without a leading zero that read back as the magnitude |
| Decimal.ParseNatToString | source/MultiTabLauncher/main.cpp:605-606 | reading the digits back gives the number, so distinct indices render differently |
| Decimal.NatToStringInjective | source/MultiTabLauncher/main.cpp:617-620 | two indices with the same rendering are equal |
| Profile.ReadStringFromIni | source/MultiTabLauncher/main.cpp:555-569 | the grow-and-retry loop returns the stored value (or the default) whole, and stops at the first 256-times-a-power-of-two buffer with room for its UTF-16 code units plus two |
| Profile.WriteString | source/MultiTabLauncher/main.cpp:652-655 | a successful write sets its key, a failed one changes nothing, and no other key changes |
| Config.ClampTabCount | source/MultiTabLauncher/main.cpp:587-588 | the tab count is in [1, 50]; a stored count in range is kept, any other becomes 10 |
| Config.PositiveOr | source/MultiTabLauncher/main.cpp:590-594 | rows and columns are positive; a stored positive value is kept, any other becomes the default (3 rows, 8 columns) |
| Config.DefaultTabNameFits | source/MultiTabLauncher/main.cpp:606 | the fallback name "Tab{i+1}" of any of the 50 possible tabs is 4 or 5 UTF-16 code units long |
| Config.LoadTabName | source/MultiTabLauncher/main.cpp:603-612 | a tab name is 1 to 30 UTF-16 code units long: the stored name when it is, otherwise "Tab{i+1}" |
| Config.LoadButton | source/MultiTabLauncher/main.cpp:615-632 | a loaded button's Name, Path and Params are the stored texts trimmed, and Admin is true iff the stored integer is non-zero |
| Config.LoadConfiguration | source/MultiTabLauncher/main.cpp:586-636 | the loaded grid is well formed (count in [1, 50], positive dimensions, perTab = rows*cols, tabCount names of 1 to 30 code units, a dense tabCount x perTab table of trimmed buttons) and each entry is what its keys say |
| Config.SaveButtonConfiguration | source/MultiTabLauncher/main.cpp:646-658 | the save reports success iff all four writes (Name, Path, Params, Admin "1"/"0") succeed |
| Config.NumberedKeyInjective | source/MultiTabLauncher/main.cpp:617-620 | a number embedded in a key between a prefix and a non-digit suffix can be read back, so keys of different numbers differ |
| Config.ButtonFieldKeyInjective | source/MultiTabLauncher/main.cpp:648-655 | distinct (tab, button, field) triples are stored under distinct (section, key) pairs |
| Config.TabSectionIsNotTabs | source/MultiTabLauncher/main.cpp:617 | no "Tab{t}" section is the "Tabs" section that holds the count, dimensions and tab names |
| Config.SaveFrame | source/MultiTabLauncher/main.cpp:646-658 | a save changes only its own button's four keys, each holding the written text iff its write succeeded |
| Config.SaveThenLoadKeepsRest | source/MultiTabLauncher/main.cpp:646-658 | loading after a save gives the same tab count, dimensions, tab names and every other button |
| Config.LoadButtonAfterSave | source/MultiTabLauncher/main.cpp:623-632 | after a fully successful save the loader reads back the saved record with its texts trimmed, for texts the INI read returns as written (see Left out: enclosing quotes) |
| Config.SaveThenLoadRoundTrip | source/MultiTabLauncher/main.cpp:646-658 | save then load yields the saved record, trimmed, when all writes succeed, "1"/"0" parse as non-zero/zero and no text is enclosed in quotes (see Left out) |
| Config.SaveThenLoadTrimmedRecord | source/MultiTabLauncher/main.cpp:994-1000 | a record trimmed as the edit dialog commits it, with no text enclosed in quotes, comes back from save then load unchanged (see Left out) |
| ButtonIds.ButtonId | source/MultiTabLauncher/main.cpp:489-490 | each tab's buttons take the block of perTab ids after the blocks of the earlier tabs, and every created id is below 1000 + tabCount * perTab |
| ButtonIds.DispatchCommand | source/MultiTabLauncher/main.cpp:240-246 | an id is accepted iff it lies in [1000, 1000 + tabCount*perTab), and then names the unique in-range (tab, slot) whose id it is |
| ButtonIds.CellOf | source/MultiTabLauncher/main.cpp:524-525 | the layout cell of slot i satisfies i = row*cols + col with col < cols, and row < rows for every slot of the tab |
| ButtonIds.CreatedIdDispatchesBack | source/MultiTabLauncher/main.cpp:485-490 | every created button's id passes the range check, dispatches to its own (tab, row*cols+col), and lays out at its own (row, col) |
| ButtonIds.DispatchedIdWasCreated | source/MultiTabLauncher/main.cpp:241-244 | every accepted id is the id created for the button it dispatches to |
| ButtonIds.LoWord | source/MultiTabLauncher/main.cpp:240 | `LOWORD` is the id's low 16 bits: it differs from the id by a multiple of 65536, so an id below 65536 is kept |
| ButtonIds.ClickDispatchesBack | source/MultiTabLauncher/main.cpp:240-245 | while all ids fit in 16 bits, the clicked button's `LOWORD` id dispatches to that button |
| ButtonIds.DefaultGridIdsFitInWord | source/MultiTabLauncher/main.cpp:587-596 | the default grid of 10 tabs of 3x8 buttons uses ids below 65536 |
| ButtonIds.ClickAliasesPastWordRange | source/MultiTabLauncher/main.cpp:240-244 | beyond 16 bits ids alias: in a 50-tab 40x40 grid, the click on tab 43 row 30 column 0 dispatches to tab 2 slot 1264 |
| Launch.ExpandEnvironmentVariables | source/MultiTabLauncher/main.cpp:860-870 | a string without '%' and a string whose expansion is reported empty come back unchanged; a string with '%' that the system expands becomes that expansion |
| Launch.SearchPathGrowing | source/MultiTabLauncher/main.cpp:836-849 | the growing-buffer `SearchPathW` loop returns the found path whole, and nothing when the system reports length 0 |
| Launch.ResolveExecutablePath | source/MultiTabLauncher/main.cpp:823-853 | the file in the launcher's directory when it exists, else the search-path result, else the name unchanged |
| Launch.FirstFound | source/MultiTabLauncher/main.cpp:825-852 | the earliest place that holds a path is the answer; when none does, the fallback |
| Launch.ResolveIsFirstMatch | source/MultiTabLauncher/main.cpp:825-852 | resolution is "first match wins" over the order launcher directory, search path, falling back to the name |
| Launch.ResolveNonEmpty | source/MultiTabLauncher/main.cpp:823-853 | a non-empty name never resolves to the empty string |
| Launch.Verb | source/MultiTabLauncher/main.cpp:716 | the operation is "runas" iff elevation is asked for, "open" otherwise |
| Launch.ParamsArgument | source/MultiTabLauncher/main.cpp:724 | empty parameters are passed as null, others as they are |
| Launch.Classify | source/MultiTabLauncher/main.cpp:753-764 | a named category is chosen only by its own result code, and "unknown" exactly for codes outside 0, 2, 3, 5, 8, 11, 27, 31 |
| Launch.DiagnosticText | source/MultiTabLauncher/main.cpp:749-751 | the message is, in this order and nothing else, the header, the file, the line break and "Error code: ", the code in decimal, a blank line, and the category sentence |
| Launch.ClassifyInvertsCategoryCode | source/MultiTabLauncher/main.cpp:753-764 | each named category is chosen by exactly its own code, and every other code is "unknown" |
| Launch.LaunchApplication | source/MultiTabLauncher/main.cpp:714-768 | one or two calls with the same verb and expanded parameters; the first on the expanded path; a second iff the first fails and the resolved path is non-empty and different, on that path; success iff the last code exceeds 32; on failure a report of the unexpanded path, last code and its category |
| Launch.LaunchSucceedsIff | source/MultiTabLauncher/main.cpp:728-746 | the launch succeeds iff the first code exceeds 32, or a retry is made and its code does |
| Launch.RetryRescuesLaunch | source/MultiTabLauncher/main.cpp:733-746 | a failed first call followed by a successful call on a different resolved path is a success |
| Launch.FailureReportNamesPathAndCategory | source/MultiTabLauncher/main.cpp:748-764 | the failure text carries the unexpanded path right after its header and ends with the non-empty category sentence |
| Launch.OnLaunchButtonClick | source/MultiTabLauncher/main.cpp:775-784 | a button with an empty path launches nothing; any other is exactly `LaunchApplication` of its path, parameters and elevation flag, whose first call is on the expanded path |
| Utf16.UnitsToBytes | source/MultiTabLauncher/main.cpp:887-890 | each code unit becomes its low byte then its high byte, in order |
| Utf16.EncodeUtf16Le | source/MultiTabLauncher/main.cpp:883-890 | the file is FF FE followed by 2 bytes per code unit |
| Utf16.DecodeEncode | source/MultiTabLauncher/main.cpp:878-894 | reading the written bytes back yields the text |
| Utf16.EncodeDecode | source/MultiTabLauncher/main.cpp:878-894 | every byte string that reads back as a text is that text's encoding |
| Utf16.WriteUtf16LeFile | source/MultiTabLauncher/main.cpp:878-894 | false iff the file cannot be opened; otherwise the file starts with FF FE, has 2 + 2n bytes and reads back as the text |

## Left out

- Window procedure, painting, GDI brushes and fonts, tab-control pixel layout, the settings dialog, edit-control subclassing and `GetTextFromDialogControl`: user-interface glue. The dialog's trimming on commit appears only as the premise of `Config.SaveThenLoadTrimmedRecord`.
- `SaveWindowPosition` / `RestoreWindowPosition`: registry I/O of an opaque placement blob.
- `ExtractIconFromFile`, `DestroyIcon`, `CopyIcon` and icon lifetime: resource handles, not logic. The code never destroys the shared default icon (main.cpp:269, 428); this is not modelled.
- `WinMain`'s `GetModuleFileNameW` loop, `PathFileExists`, `GenerateDefaultConfigFile` and the `std::exit` when the default file cannot be written: start-up plumbing. The launcher directory is the parameter `Os.appDir`.
- The default INI text of `GetDefaultConfigString`: data, not logic (it declares Count=10, ButtonRows=3, ButtonCols=8, the same values as the loader's defaults).
- The INI file's text format, `GetPrivateProfileIntW`'s number parsing, `iswspace`'s character table, `std::filesystem` path append and `exists`, `SearchPathW`, `ExpandEnvironmentStringsW` and `ShellExecuteW`: their behaviour is not in the program, so each is an uninterpreted parameter. `GetPrivateProfileStringW`'s own stripping of quotes around values is part of that format and is not modelled.
- `std::filesystem::exists` can throw on an inaccessible path; the model treats it as a plain yes/no.
- Launch.LaunchApplication: `ShellExecuteW` is a function of the request, so two identical requests would get the same code; the launcher never repeats an identical request, because the retry needs a different path.
- Config.SaveButtonConfiguration: `ok &= ...` is a bitwise and of `BOOL` results; the model uses logical conjunction, which agrees when each write returns 0 or 1.
- Config.LoadConfiguration: C `int` width is not modelled. `GetPrivateProfileIntW` returns an unsigned value stored in an `int`, and `rows * cols` and the id arithmetic could overflow 32 bits only for grids far too large to create.
- ButtonIds.DispatchCommand: the drawing handler (main.cpp:310-313) decomposes ids the same way without a range check; it runs only for created buttons and is not modelled.
- Profile.ReadStringFromIni: `std::wstring(buffer.data())` stops at a NUL character; values returned by the INI API contain none, so the model returns the value as stored.
- `SetCurrentDirectoryW` after a launch (main.cpp:782) and after a confirmed settings dialog (main.cpp:276): process state, not modelled. The `Os` oracles answer as if the working directory were always the launcher's, which is what those calls restore. That is not so after the settings dialog's Browse button (`GetOpenFileNameW` without `OFN_NOCHANGEDIR`, main.cpp:977) when the dialog is then cancelled (main.cpp:1005-1008): the next launch's `SearchPathW` and a relative `ShellExecuteW` then run in the directory the file dialog left behind.
- Config.LoadButtonAfterSave: holds only for texts that `GetPrivateProfileStringW` returns as they were written. It drops a pair of quotation marks enclosing a value, so a Name, Path or Params such as `"C:\Tools\x.exe"` (the form of a copied path) is saved with its quotes and read back without them; the model's store returns every text as written.
- Config.SaveThenLoadRoundTrip: the same premise; a record with a text enclosed in quotation marks does not come back as saved.
- Config.SaveThenLoadTrimmedRecord: the same premise; trimming leaves enclosing quotation marks in place, and the reload drops them.

=== FILE: buttonids.dfy ===
/**
 Control-id arithmetic of the button grid. `CreateButtonsForTab` gives the
 button in row `row`, column `col` of tab `tab` the id
 1000 + tab * perTab + (row * cols + col); the `WM_COMMAND` handler maps an
 id back to (tab, slot) with `/` and `%` after a range check, and
 `UpdateLayoutOnResize` maps a slot back to (row, col). All operands are
 non-negative, where C's truncating division agrees with Dafny's.
 */
module ButtonIds {
  import opened Wrappers
  import opened Config

  const ButtonIdBase: int := 1000

  /** Ids that reach the window procedure through `LOWORD(wParam)` keep only 16 bits. */
  const WordRange: int := 0x1_0000

  datatype Slot = Slot(tab: nat, index: nat)

  datatype Cell = Cell(row: nat, col: nat)

  /** Grid dimensions as the loader leaves them. */
  predicate HasGridShape(g: Grid) {
    g.rows > 0 && g.cols > 0 && g.perTab == g.rows * g.cols
  }

  /** Slot index of a grid cell within its tab (`i = row * cols + col`). */
  function SlotIndex(g: Grid, row: nat, col: nat): nat {
    row * g.cols + col
  }

  /**
   The control id `CreateButtonsForTab` assigns. Tab `tab` owns the block of
   perTab ids that follows the blocks of the tabs before it, and the ids of
   all created buttons lie below 1000 + tabCount * perTab.
   */
  function ButtonId(g: Grid, tab: nat, row: nat, col: nat): (id: int)
    ensures id >= ButtonIdBase + tab * g.perTab
    ensures HasGridShape(g) && row < g.rows && col < g.cols ==> id < ButtonIdBase + (tab + 1) * g.perTab
    ensures HasGridShape(g) && tab < g.tabCount && row < g.rows && col < g.cols ==>
      id < ButtonIdBase + g.tabCount * g.perTab
  {
    SlotFitsTab(g, tab, row, col);
    ButtonIdBase + tab * g.perTab + SlotIndex(g, row, col)
  }

  lemma SlotFitsTab(g: Grid, tab: nat, row: nat, col: nat)
    ensures HasGridShape(g) && row < g.rows && col < g.cols ==> SlotIndex(g, row, col) < g.perTab
    ensures HasGridShape(g) && tab < g.tabCount ==> (tab + 1) * g.perTab <= g.tabCount * g.perTab
  {
    if HasGridShape(g) && row < g.rows && col < g.cols {
      MulMonotone(row + 1, g.rows, g.cols);
    }
    if HasGridShape(g) && tab < g.tabCount {
      MulMonotone(tab + 1, g.tabCount, g.perTab);
    }
  }

  /**
   `WM_COMMAND` dispatch: an id inside [1000, 1000 + tabCount * perTab)
   names the slot whose id it is; any other id names no button.
   */
  function DispatchCommand(g: Grid, id: int): (r: Option<Slot>)
    requires g.perTab > 0
    ensures r.Some? <==> ButtonIdBase <= id < ButtonIdBase + g.tabCount * g.perTab
    ensures r.Some? ==> && r.value.tab < g.tabCount && r.value.index < g.perTab
                        && id == ButtonIdBase + r.value.tab * g.perTab + r.value.index
  {
    if ButtonIdBase <= id < ButtonIdBase + g.tabCount * g.perTab then
      var offset := id - ButtonIdBase;
      DivBelow(offset, g.perTab, g.tabCount);
      DivMod(offset, g.perTab);
      Some(Slot(offset / g.perTab, offset % g.perTab))
    else
      None
  }

  /** `UpdateLayoutOnResize`: the cell of slot `i` (row `i / cols`, column `i % cols`). */
  function CellOf(g: Grid, i: nat): (c: Cell)
    requires HasGridShape(g)
    ensures c.col < g.cols && i == c.row * g.cols + c.col
    ensures i < g.perTab ==> c.row < g.rows
  {
    DivBelow(i, g.cols, g.rows);
    DivMod(i, g.cols);
    Cell(i / g.cols, i % g.cols)
  }

  lemma DivMod(x: nat, d: nat)
    requires d > 0
    ensures x == (x / d) * d + x % d && x % d < d
  {
  }

  /** A quotient by `d` of a number below n * d is below n. */
  lemma DivBelow(x: nat, d: nat, n: nat)
    requires d > 0
    ensures x < n * d ==> x / d < n
  {
    if x / d >= n {
      MulMonotone(n, x / d, d);
    }
  }

  lemma MulMonotone(a: nat, b: nat, d: nat)
    requires a <= b
    ensures a * d <= b * d
  {
  }

  /** Quotient and remainder are the unique pair with x == q * d + r and 0 <= r < d. */
  lemma DivModUnique(x: int, d: int, q: int, r: int)
    requires d > 0 && 0 <= r < d && x == q * d + r
    ensures x / d == q && x % d == r
  {
    var q', r' := x / d, x % d;
    assert x == q' * d + r';
    assert (q - q') * d == r' - r;
    if q > q' {
      MulMonotone(1, q - q', d);
    } else if q < q' {
      MulMonotone(1, q' - q, d);
    }
  }

  /**
   Every button the grid creates passes the dispatch range check, and `/`, `%`
   give back its tab and slot; the layout's `/`, `%` give back its row and
   column.
   */
  lemma CreatedIdDispatchesBack(g: Grid, tab: nat, row: nat, col: nat)
    requires HasGridShape(g)
    requires tab < g.tabCount && row < g.rows && col < g.cols
    ensures SlotIndex(g, row, col) < g.perTab
    ensures DispatchCommand(g, ButtonId(g, tab, row, col)) == Some(Slot(tab, SlotIndex(g, row, col)))
    ensures CellOf(g, SlotIndex(g, row, col)) == Cell(row, col)
  {
    var i := SlotIndex(g, row, col);
    MulMonotone(row + 1, g.rows, g.cols);
    assert i < g.perTab;
    MulMonotone(tab + 1, g.tabCount, g.perTab);
    var r := DispatchCommand(g, ButtonId(g, tab, row, col));
    assert r.Some?;
    DivModUnique(ButtonId(g, tab, row, col) - ButtonIdBase, g.perTab, tab, i);
    DivModUnique(i, g.cols, row, col);
  }

  /** Conversely, every id the dispatch accepts is the id of the button it selects. */
  lemma DispatchedIdWasCreated(g: Grid, id: int)
    requires HasGridShape(g)
    requires DispatchCommand(g, id).Some?
    ensures var s := DispatchCommand(g, id).value;
      var c := CellOf(g, s.index);
      s.tab < g.tabCount && c.row < g.rows && c.col < g.cols && ButtonId(g, s.tab, c.row, c.col) == id
  {
  }

  /** `LOWORD`: the low 16 bits of a non-negative id. */
  function LoWord(id: nat): (w: nat)
    ensures w < WordRange
    ensures id < WordRange ==> w == id
    ensures (id - w) % WordRange == 0
  {
    id % WordRange
  }

  /**
   The id the window procedure sees for a click is the 16-bit `LOWORD` of
   the control id. While every id of the grid fits in 16 bits, dispatching
   that word still selects the clicked button.
   */
  lemma ClickDispatchesBack(g: Grid, tab: nat, row: nat, col: nat)
    requires HasGridShape(g)
    requires tab < g.tabCount && row < g.rows && col < g.cols
    requires ButtonIdBase + g.tabCount * g.perTab <= WordRange
    ensures DispatchCommand(g, LoWord(ButtonId(g, tab, row, col))) == Some(Slot(tab, SlotIndex(g, row, col)))
  {
    CreatedIdDispatchesBack(g, tab, row, col);
  }

  /** The default grid (10 tabs of 3 by 8 buttons) uses ids 1000 to 1239, well inside 16 bits. */
  lemma DefaultGridIdsFitInWord(g: Grid)
    requires g.tabCount == DefaultTabCount && g.rows == DefaultRows && g.cols == DefaultCols
    requires g.perTab == g.rows * g.cols
    ensures ButtonIdBase + g.tabCount * g.perTab <= WordRange
  {
  }

  /**
   Past 16 bits, ids alias: with 50 tabs of 40 by 40 buttons, the button in
   row 30, column 0 of tab 43 has id 71000, whose low word 5464 dispatches to
   slot 1264 of tab 2.
   */
  lemma ClickAliasesPastWordRange()
    ensures var g := Grid(50, 40, 40, 1600, [], []);
      && ButtonId(g, 43, 30, 0) == 71000
      && DispatchCommand(g, LoWord(ButtonId(g, 43, 30, 0))) == Some(Slot(2, 1264))
  {
    var g := Grid(50, 40, 40, 1600, [], []);
    DivModUnique(4464, 1600, 2, 1264);
  }
}

=== FILE: config.dfy ===
/**
 `LoadConfigurationFromFile` and `SaveButtonConfigurationToFile`: the typed
 grid of launch buttons that the launcher derives from its INI store, and the
 per-button write-back. Keys follow one namespace: section "Tabs" holds
 `Count`, `ButtonRows`, `ButtonCols` and the tab names `Tab{i}`; section
 "Tab{t}" holds `Button{b}_Name`, `_Path`, `_Params` and `_Admin`.
 */
module Config {
  import opened Decimal
  import opened Whitespace
  import opened Profile
  import opened WideString

  const MaxTabs: int := 50
  const DefaultTabCount: nat := 10
  const DefaultRows: nat := 3
  const DefaultCols: nat := 8
  const MaxTabNameLength: nat := 30

  /** One launch button; the icon handle belongs to the window layer and is not modelled. */
  datatype ButtonInfo = ButtonInfo(name: string, path: string, parameters: string, adminMode: bool)

  /** The loaded configuration: tab count, grid shape, tab names and a dense table of buttons. */
  datatype Grid = Grid(
    tabCount: nat,
    rows: nat,
    cols: nat,
    perTab: nat,
    tabNames: seq<string>,
    buttons: seq<seq<ButtonInfo>>)

  /** The two runtime library behaviours the loader depends on: `iswspace` and `GetPrivateProfileIntW`'s number parsing. */
  datatype Platform = Platform(isSpace: char -> bool, parseInt: string -> int)

  datatype Field = Name | Path | Params | Admin

  // ---------------------------------------------------------------- keys

  const TabsSection: string := "Tabs"

  function TabSection(t: nat): string {
    "Tab" + NatToString(t)
  }

  function TabNameKey(i: nat): string {
    "Tab" + NatToString(i)
  }

  function DefaultTabName(i: nat): string {
    "Tab" + NatToString(i + 1)
  }

  function FieldSuffix(f: Field): string {
    match f
    case Name => "_Name"
    case Path => "_Path"
    case Params => "_Params"
    case Admin => "_Admin"
  }

  function ButtonKey(b: nat, f: Field): string {
    "Button" + NatToString(b) + FieldSuffix(f)
  }

  function ButtonFieldKey(t: nat, b: nat, f: Field): Key {
    Key(TabSection(t), ButtonKey(b, f))
  }

  // ---------------------------------------------------------------- load

  /** Tab count rule: a stored count outside [1, MaxTabs] becomes the default 10. */
  function ClampTabCount(n: int): (c: nat)
    ensures 1 <= c <= MaxTabs
    ensures 1 <= n <= MaxTabs ==> c == n
    ensures !(1 <= n <= MaxTabs) ==> c == DefaultTabCount
  {
    if n <= 0 || n > MaxTabs then DefaultTabCount else n
  }

  /** Grid dimension rule: a stored value that is not positive becomes `default`. */
  function PositiveOr(n: int, default: nat): (d: nat)
    requires default > 0
    ensures d > 0
    ensures n > 0 ==> d == n
    ensures n <= 0 ==> d == default
  {
    if n <= 0 then default else n
  }

  /** A tab name the loader keeps: 1 to 30 UTF-16 code units, the length of a `std::wstring`. */
  predicate FitsTabName(name: string) {
    1 <= WideLength(name) <= MaxTabNameLength
  }

  /**
   Name of tab `i`: the stored name unless it is empty or longer than 30
   UTF-16 code units (the length of a `std::wstring`), then "Tab{i+1}".
   */
  function LoadTabName(store: Store, i: nat): (name: string)
    requires i < MaxTabs
    ensures FitsTabName(name)
    ensures var stored := GetString(store, TabsSection, TabNameKey(i), DefaultTabName(i));
      name == (if FitsTabName(stored) then stored else DefaultTabName(i))
  {
    var stored := GetString(store, TabsSection, TabNameKey(i), DefaultTabName(i));
    DefaultTabNameFits(i);
    if WideLength(stored) == 0 || WideLength(stored) > MaxTabNameLength then DefaultTabName(i) else stored
  }

  /** "Tab{i+1}" is itself a valid tab name for every tab the loader can create. */
  lemma DefaultTabNameFits(i: nat)
    requires i < MaxTabs
    ensures 4 <= WideLength(DefaultTabName(i)) <= 5
  {
    var digits := NatToString(i + 1);
    assert |NatToString((i + 1) / 10)| == 1;
    assert AllInBmp(digits) by {
      forall k | 0 <= k < |digits| ensures digits[k] as int < 0x1_0000 {
        assert IsDigit(digits[k]);
      }
    }
    WideLengthOfBmp(digits);
    WideLengthOfBmp("Tab");
    WideLengthConcat("Tab", digits);
  }

  function ReadField(store: Store, t: nat, b: nat, f: Field): string {
    GetString(store, TabSection(t), ButtonKey(b, f), "")
  }

  /** Button `b` of tab `t`: Name, Path and Params read and trimmed, Admin true iff the stored integer is non-zero. */
  function LoadButton(store: Store, p: Platform, t: nat, b: nat): (info: ButtonInfo)
    ensures Trimmed(info.name, p.isSpace) && Trimmed(info.path, p.isSpace) && Trimmed(info.parameters, p.isSpace)
    ensures info.name == Trim(ReadField(store, t, b, Name), p.isSpace)
    ensures info.path == Trim(ReadField(store, t, b, Path), p.isSpace)
    ensures info.parameters == Trim(ReadField(store, t, b, Params), p.isSpace)
    ensures info.adminMode <==> GetInt(store, TabSection(t), ButtonKey(b, Admin), 0, p.parseInt) != 0
  {
    ButtonInfo(
      Trim(ReadField(store, t, b, Name), p.isSpace),
      Trim(ReadField(store, t, b, Path), p.isSpace),
      Trim(ReadField(store, t, b, Params), p.isSpace),
      GetInt(store, TabSection(t), ButtonKey(b, Admin), 0, p.parseInt) != 0)
  }

  /** The shape every loaded grid has. */
  ghost predicate WellFormed(g: Grid, isSpace: char -> bool) {
    && 1 <= g.tabCount <= MaxTabs
    && g.rows > 0 && g.cols > 0
    && g.perTab == g.rows * g.cols
    && |g.tabNames| == g.tabCount
    && (forall i :: 0 <= i < g.tabCount ==> FitsTabName(g.tabNames[i]))
    && |g.buttons| == g.tabCount
    && (forall t :: 0 <= t < g.tabCount ==> |g.buttons[t]| == g.perTab)
    && (forall t, b :: 0 <= t < g.tabCount && 0 <= b < g.perTab ==>
          var info := g.buttons[t][b];
          Trimmed(info.name, isSpace) && Trimmed(info.path, isSpace) && Trimmed(info.parameters, isSpace))
  }

  /**
   `LoadConfigurationFromFile` after the file exists: clamps the tab count,
   resets non-positive dimensions, sizes the grid densely and reads every
   tab name and every button.
   */
  function LoadConfiguration(store: Store, p: Platform): (g: Grid)
    ensures WellFormed(g, p.isSpace)
    ensures g.tabCount == ClampTabCount(GetInt(store, TabsSection, "Count", 10, p.parseInt))
    ensures g.rows == PositiveOr(GetInt(store, TabsSection, "ButtonRows", 3, p.parseInt), DefaultRows)
    ensures g.cols == PositiveOr(GetInt(store, TabsSection, "ButtonCols", 8, p.parseInt), DefaultCols)
    ensures forall i :: 0 <= i < g.tabCount ==> g.tabNames[i] == LoadTabName(store, i)
    ensures forall t, b :: 0 <= t < g.tabCount && 0 <= b < g.perTab ==> g.buttons[t][b] == LoadButton(store, p, t, b)
  {
    var tabCount := ClampTabCount(GetInt(store, TabsSection, "Count", 10, p.parseInt));
    var rows := PositiveOr(GetInt(store, TabsSection, "ButtonRows", 3, p.parseInt), DefaultRows);
    var cols := PositiveOr(GetInt(store, TabsSection, "ButtonCols", 8, p.parseInt), DefaultCols);
    var perTab := rows * cols;
    Grid(tabCount, rows, cols, perTab, LoadTabNames(store, tabCount), LoadButtons(store, p, tabCount, perTab))
  }

  /** The names of tabs 0 to tabCount - 1, in order. */
  function LoadTabNames(store: Store, tabCount: nat): (names: seq<string>)
    requires tabCount <= MaxTabs
    ensures |names| == tabCount
    ensures forall i :: 0 <= i < tabCount ==> names[i] == LoadTabName(store, i) && FitsTabName(names[i])
  {
    seq(tabCount, i requires 0 <= i < tabCount => LoadTabName(store, i))
  }

  /** The dense tabCount x perTab table of buttons, each read from its own keys. */
  function LoadButtons(store: Store, p: Platform, tabCount: nat, perTab: nat): (buttons: seq<seq<ButtonInfo>>)
    ensures |buttons| == tabCount
    ensures forall t :: 0 <= t < tabCount ==> |buttons[t]| == perTab
    ensures forall t, b :: 0 <= t < tabCount && 0 <= b < perTab ==> buttons[t][b] == LoadButton(store, p, t, b)
  {
    seq(tabCount, t requires 0 <= t => seq(perTab, b requires 0 <= b => LoadButton(store, p, t, b)))
  }

  // ---------------------------------------------------------------- save

  /** Outcome of one `WritePrivateProfileStringW` call, which the model cannot see. */
  type WriteOracle = (Key, string) -> bool

  function AdminText(adminMode: bool): string {
    if adminMode then "1" else "0"
  }

  /** The text `SaveButtonConfigurationToFile` writes for field `f` of `info`. */
  function FieldText(info: ButtonInfo, f: Field): string {
    match f
    case Name => info.name
    case Path => info.path
    case Params => info.parameters
    case Admin => AdminText(info.adminMode)
  }

  predicate IsButtonKeyOf(k: Key, t: nat, b: nat) {
    k == ButtonFieldKey(t, b, Name) || k == ButtonFieldKey(t, b, Path)
    || k == ButtonFieldKey(t, b, Params) || k == ButtonFieldKey(t, b, Admin)
  }

  predicate SaveWritesSucceed(t: nat, b: nat, info: ButtonInfo, writes: WriteOracle) {
    && writes(ButtonFieldKey(t, b, Name), info.name)
    && writes(ButtonFieldKey(t, b, Path), info.path)
    && writes(ButtonFieldKey(t, b, Params), info.parameters)
    && writes(ButtonFieldKey(t, b, Admin), AdminText(info.adminMode))
  }

  /**
   `SaveButtonConfigurationToFile`: writes Name, Path, Params and Admin ("1"
   or "0") of button `b` into section "Tab{t}", performing all four writes
   even after one fails, and reports whether all four succeeded.
   */
  function SaveButtonConfiguration(store: Store, t: nat, b: nat, info: ButtonInfo, writes: WriteOracle): (r: (Store, bool))
    ensures r.1 <==> SaveWritesSucceed(t, b, info, writes)
  {
    var kName := ButtonFieldKey(t, b, Name);
    var kPath := ButtonFieldKey(t, b, Path);
    var kParams := ButtonFieldKey(t, b, Params);
    var kAdmin := ButtonFieldKey(t, b, Admin);
    var w1 := WriteString(store, kName, info.name, writes(kName, info.name));
    var w2 := WriteString(w1.0, kPath, info.path, writes(kPath, info.path));
    var w3 := WriteString(w2.0, kParams, info.parameters, writes(kParams, info.parameters));
    var w4 := WriteString(w3.0, kAdmin, AdminText(info.adminMode), writes(kAdmin, AdminText(info.adminMode)));
    (w4.0, w1.1 && w2.1 && w3.1 && w4.1)
  }

  // ---------------------------------------------------------------- key layout

  /**
   A decimal number embedded between a fixed prefix and a suffix that does not
   start with a digit can be read back: equal keys have equal numbers and
   equal suffixes.
   */
  lemma {:induction false} NumberedKeyInjective(prefix: string, a: nat, sa: string, b: nat, sb: string)
    requires |sa| == 0 || !IsDigit(sa[0])
    requires |sb| == 0 || !IsDigit(sb[0])
    requires prefix + NatToString(a) + sa == prefix + NatToString(b) + sb
    ensures a == b && sa == sb
  {
    var da, db := NatToString(a), NatToString(b);
    var x := prefix + da + sa;
    assert da + sa == x[|prefix|..];
    assert db + sb == x[|prefix|..];
    // the first non-digit after the prefix marks where the number ends
    assert forall k :: 0 <= k < |da| ==> IsDigit((da + sa)[k]);
    assert forall k :: 0 <= k < |db| ==> IsDigit((db + sb)[k]);
    assert |sa| > 0 ==> !IsDigit((da + sa)[|da|]);
    assert |sb| > 0 ==> !IsDigit((db + sb)[|db|]);
    assert |da| == |db|;
    assert da == (da + sa)[..|da|];
    assert db == (db + sb)[..|db|];
    NatToStringInjective(a, b);
    assert sa == (da + sa)[|da|..];
    assert sb == (db + sb)[|db|..];
  }

  lemma FieldSuffixInjective(f: Field, g: Field)
    requires FieldSuffix(f) == FieldSuffix(g)
    ensures f == g
  {
    match f
    case Name => assert FieldSuffix(g)[1] == 'N';
    case Path => assert FieldSuffix(g)[1] == 'P' && FieldSuffix(g)[2] == 'a' && |FieldSuffix(g)| == 5;
    case Params => assert |FieldSuffix(g)| == 7;
    case Admin => assert FieldSuffix(g)[1] == 'A';
  }

  /** Distinct (tab, button, field) triples are stored under distinct keys. */
  lemma ButtonFieldKeyInjective(t: nat, b: nat, f: Field, t': nat, b': nat, f': Field)
    requires ButtonFieldKey(t, b, f) == ButtonFieldKey(t', b', f')
    ensures t == t' && b == b' && f == f'
  {
    assert "Tab" + NatToString(t) + "" == TabSection(t);
    assert "Tab" + NatToString(t') + "" == TabSection(t');
    NumberedKeyInjective("Tab", t, "", t', "");
    NumberedKeyInjective("Button", b, FieldSuffix(f), b', FieldSuffix(f'));
    FieldSuffixInjective(f, f');
  }

  lemma ButtonKeysDistinct(t: nat, b: nat)
    ensures forall f, f' :: f != f' ==> ButtonFieldKey(t, b, f) != ButtonFieldKey(t, b, f')
  {
    forall f, f' | ButtonFieldKey(t, b, f) == ButtonFieldKey(t, b, f')
      ensures f == f'
    {
      ButtonFieldKeyInjective(t, b, f, t, b, f');
    }
  }

  /** No per-tab section is the "Tabs" section, so button writes never touch the grid header or tab names. */
  lemma TabSectionIsNotTabs(t: nat)
    ensures TabSection(t) != TabsSection
  {
    var s := TabSection(t);
    assert s[3] == NatToString(t)[0];
    assert IsDigit(s[3]);
  }

  // ---------------------------------------------------------------- save, then load

  /** The record the loader produces from `info` once it is stored: the three texts trimmed. */
  function TrimButton(info: ButtonInfo, isSpace: char -> bool): ButtonInfo {
    ButtonInfo(Trim(info.name, isSpace), Trim(info.path, isSpace), Trim(info.parameters, isSpace), info.adminMode)
  }

  /**
   A save changes only the four keys of its own button: each of them holds the
   written text when its write succeeded and is untouched when it failed, and
   every other key of the store keeps its value.
   */
  lemma SaveFrame(store: Store, t: nat, b: nat, info: ButtonInfo, writes: WriteOracle)
    ensures var r := SaveButtonConfiguration(store, t, b, info, writes);
      && (forall k :: !IsButtonKeyOf(k, t, b) ==> (k in r.0 <==> k in store))
      && (forall k :: !IsButtonKeyOf(k, t, b) && k in store ==> r.0[k] == store[k])
      && (forall f :: writes(ButtonFieldKey(t, b, f), FieldText(info, f)) ==>
            ButtonFieldKey(t, b, f) in r.0 && r.0[ButtonFieldKey(t, b, f)] == FieldText(info, f))
      && (forall f :: !writes(ButtonFieldKey(t, b, f), FieldText(info, f)) ==>
            && (ButtonFieldKey(t, b, f) in r.0 <==> ButtonFieldKey(t, b, f) in store)
            && (ButtonFieldKey(t, b, f) in store ==> r.0[ButtonFieldKey(t, b, f)] == store[ButtonFieldKey(t, b, f)]))
  {
    ButtonKeysDistinct(t, b);
  }

  /** A key outside button (t, b)'s four keys reads the same before and after the save. */
  lemma SaveKeepsOtherReads(store: Store, t: nat, b: nat, info: ButtonInfo, writes: WriteOracle,
                            section: string, name: string, default: string)
    requires !IsButtonKeyOf(Key(section, name), t, b)
    ensures var s' := SaveButtonConfiguration(store, t, b, info, writes).0;
      GetString(s', section, name, default) == GetString(store, section, name, default)
      && (forall parse: string -> int, d: int :: GetInt(s', section, name, d, parse) == GetInt(store, section, name, d, parse))
  {
    SaveFrame(store, t, b, info, writes);
  }

  lemma OtherButtonReadsKept(store: Store, t: nat, b: nat, info: ButtonInfo, writes: WriteOracle, t2: nat, b2: nat, f: Field)
    requires (t2, b2) != (t, b)
    ensures var s' := SaveButtonConfiguration(store, t, b, info, writes).0;
      GetString(s', TabSection(t2), ButtonKey(b2, f), "") == GetString(store, TabSection(t2), ButtonKey(b2, f), "")
      && (forall parse: string -> int, d: int ::
            GetInt(s', TabSection(t2), ButtonKey(b2, f), d, parse) == GetInt(store, TabSection(t2), ButtonKey(b2, f), d, parse))
  {
    forall f' | ButtonFieldKey(t2, b2, f) == ButtonFieldKey(t, b, f') ensures false {
      ButtonFieldKeyInjective(t2, b2, f, t, b, f');
    }
    assert Key(TabSection(t2), ButtonKey(b2, f)) == ButtonFieldKey(t2, b2, f);
    SaveKeepsOtherReads(store, t, b, info, writes, TabSection(t2), ButtonKey(b2, f), "");
  }

  /** After a fully successful save, the loader reads back the saved record with its texts trimmed. */
  lemma LoadButtonAfterSave(store: Store, p: Platform, t: nat, b: nat, info: ButtonInfo, writes: WriteOracle)
    requires SaveWritesSucceed(t, b, info, writes)
    requires p.parseInt("1") != 0 && p.parseInt("0") == 0
    ensures LoadButton(SaveButtonConfiguration(store, t, b, info, writes).0, p, t, b) == TrimButton(info, p.isSpace)
  {
    SaveFrame(store, t, b, info, writes);
    var s' := SaveButtonConfiguration(store, t, b, info, writes).0;
    assert s'[ButtonFieldKey(t, b, Name)] == info.name;
    assert s'[ButtonFieldKey(t, b, Path)] == info.path;
    assert s'[ButtonFieldKey(t, b, Params)] == info.parameters;
    assert s'[ButtonFieldKey(t, b, Admin)] == AdminText(info.adminMode);
  }

  /**
   Saving button (t, b) and loading again leaves the tab count, the grid shape,
   the tab names and every other button as they were.
   */
  lemma SaveThenLoadKeepsRest(store: Store, p: Platform, t: nat, b: nat, info: ButtonInfo, writes: WriteOracle)
    ensures var g := LoadConfiguration(store, p);
      var g' := LoadConfiguration(SaveButtonConfiguration(store, t, b, info, writes).0, p);
      && g'.tabCount == g.tabCount && g'.rows == g.rows && g'.cols == g.cols && g'.perTab == g.perTab
      && g'.tabNames == g.tabNames
      && (forall t2, b2 :: 0 <= t2 < g.tabCount && 0 <= b2 < g.perTab && (t2, b2) != (t, b) ==>
            g'.buttons[t2][b2] == g.buttons[t2][b2])
  {
    var g := LoadConfiguration(store, p);
    var s' := SaveButtonConfiguration(store, t, b, info, writes).0;
    var g' := LoadConfiguration(s', p);
    TabSectionIsNotTabs(t);
    SaveKeepsOtherReads(store, t, b, info, writes, TabsSection, "Count", "");
    SaveKeepsOtherReads(store, t, b, info, writes, TabsSection, "ButtonRows", "");
    SaveKeepsOtherReads(store, t, b, info, writes, TabsSection, "ButtonCols", "");
    assert g'.tabCount == g.tabCount && g'.rows == g.rows && g'.cols == g.cols;
    forall i | 0 <= i < g.tabCount
      ensures g'.tabNames[i] == g.tabNames[i]
    {
      SaveKeepsOtherReads(store, t, b, info, writes, TabsSection, TabNameKey(i), DefaultTabName(i));
    }
    forall t2, b2 | 0 <= t2 < g.tabCount && 0 <= b2 < g.perTab && (t2, b2) != (t, b)
      ensures g'.buttons[t2][b2] == g.buttons[t2][b2]
    {
      OtherButtonReadsKept(store, t, b, info, writes, t2, b2, Name);
      OtherButtonReadsKept(store, t, b, info, writes, t2, b2, Path);
      OtherButtonReadsKept(store, t, b, info, writes, t2, b2, Params);
      OtherButtonReadsKept(store, t, b, info, writes, t2, b2, Admin);
    }
  }

  /**
   Round trip: when all four writes succeed and the platform reads "1" as
   non-zero and "0" as zero, loading after the save yields the saved record
   with its texts trimmed.
   */
  lemma SaveThenLoadRoundTrip(store: Store, p: Platform, t: nat, b: nat, info: ButtonInfo, writes: WriteOracle)
    requires t < LoadConfiguration(store, p).tabCount && b < LoadConfiguration(store, p).perTab
    requires SaveWritesSucceed(t, b, info, writes)
    requires p.parseInt("1") != 0 && p.parseInt("0") == 0
    ensures var g' := LoadConfiguration(SaveButtonConfiguration(store, t, b, info, writes).0, p);
      t < g'.tabCount && b < g'.perTab && g'.buttons[t][b] == TrimButton(info, p.isSpace)
  {
    SaveThenLoadKeepsRest(store, p, t, b, info, writes);
    LoadButtonAfterSave(store, p, t, b, info, writes);
  }

  /** A record already trimmed, as the edit dialog commits it, comes back unchanged. */
  lemma SaveThenLoadTrimmedRecord(store: Store, p: Platform, t: nat, b: nat, info: ButtonInfo, writes: WriteOracle)
    requires t < LoadConfiguration(store, p).tabCount && b < LoadConfiguration(store, p).perTab
    requires SaveWritesSucceed(t, b, info, writes)
    requires p.parseInt("1") != 0 && p.parseInt("0") == 0
    requires Trimmed(info.name, p.isSpace) && Trimmed(info.path, p.isSpace) && Trimmed(info.parameters, p.isSpace)
    ensures var g' := LoadConfiguration(SaveButtonConfiguration(store, t, b, info, writes).0, p);
      t < g'.tabCount && b < g'.perTab && g'.buttons[t][b] == info
  {
    SaveThenLoadRoundTrip(store, p, t, b, info, writes);
    TrimOfTrimmed(info.name, p.isSpace);
    TrimOfTrimmed(info.path, p.isSpace);
    TrimOfTrimmed(info.parameters, p.isSpace);
  }
}

=== FILE: decimal.dfy ===
/**
 Decimal rendering of integers, as `std::to_wstring` produces it for the tab,
 button and error-code numbers that appear in INI keys and diagnostics.
 */
module Decimal {

  predicate IsDigit(c: char) {
    '0' <= c <= '9'
  }

  ghost predicate AllDigits(s: string) {
    forall k :: 0 <= k < |s| ==> IsDigit(s[k])
  }

  function DigitChar(d: nat): (c: char)
    requires d < 10
    ensures IsDigit(c)
  {
    (('0' as int) + d) as char
  }

  function DigitValue(c: char): (d: nat)
    requires IsDigit(c)
    ensures d < 10
    ensures DigitChar(d) == c
  {
    (c as int) - ('0' as int)
  }

  /** Shortest decimal rendering of `n` (no sign, no leading zeros). */
  function NatToString(n: nat): (s: string)
    ensures |s| >= 1
    ensures AllDigits(s)
    ensures |s| > 1 ==> s[0] != '0'
    decreases n
  {
    if n < 10 then [DigitChar(n)] else NatToString(n / 10) + [DigitChar(n % 10)]
  }

  /** Reads a string of decimal digits back as a number; the reference inverse of NatToString. */
  function ParseDigits(s: string): nat
    requires AllDigits(s)
    decreases |s|
  {
    if |s| == 0 then 0 else ParseDigits(s[..|s| - 1]) * 10 + DigitValue(s[|s| - 1])
  }

  /** `std::to_wstring` of a possibly negative integer: a minus sign for negatives, then the magnitude's digits. */
  function IntToString(i: int): (s: string)
    ensures |s| >= 1
    ensures i < 0 <==> s[0] == '-'
    ensures i >= 0 ==> AllDigits(s) && ParseDigits(s) == i
    ensures i < 0 ==> AllDigits(s[1..]) && ParseDigits(s[1..]) == -i
    ensures i >= 0 && |s| > 1 ==> s[0] != '0'
    ensures i < 0 ==> |s| >= 2 && s[1] != '0'
  {
    if i < 0 then
      ParseNatToString(-i);
      assert ("-" + NatToString(-i))[1..] == NatToString(-i);
      "-" + NatToString(-i)
    else
      ParseNatToString(i);
      NatToString(i)
  }

  lemma {:induction false} ParseNatToString(n: nat)
    ensures ParseDigits(NatToString(n)) == n
    decreases n
  {
    if n >= 10 {
      var s := NatToString(n);
      var prefix := NatToString(n / 10);
      assert s == prefix + [DigitChar(n % 10)];
      assert s[..|s| - 1] == prefix;
      ParseNatToString(n / 10);
    }
  }

  /** Different numbers never render to the same digits. */
  lemma NatToStringInjective(a: nat, b: nat)
    requires NatToString(a) == NatToString(b)
    ensures a == b
  {
    ParseNatToString(a);
    ParseNatToString(b);
  }
}

=== FILE: launch.dfy ===
/**
 `LaunchApplication` and its helpers `ExpandEnvironmentVariables` and
 `ResolveExecutablePath`. Every operating-system call is a field of `Os`,
 whose behaviour the program does not define; the model fixes only what the
 launcher does with the answers.
 */
module Launch {
  import opened Wrappers
  import opened Decimal
  import opened WideString

  /** One `ShellExecuteW` request: operation, file, and parameters (absent when empty). */
  datatype ShellCall = ShellCall(verb: string, file: string, params: Option<string>)

  datatype Os = Os(
    appDir: string,                       // directory of the launcher's executable
    join: (string, string) -> string,     // std::filesystem path append (operator/)
    fileExists: string -> bool,           // std::filesystem::exists
    searchPath: string -> Option<string>, // the full path SearchPathW finds, if any
    expand: string -> Option<string>,     // ExpandEnvironmentStringsW; None when it reports length 0
    shellExecute: ShellCall -> int)       // ShellExecuteW's result as an integer

  /** Initial `SearchPathW` buffer, in characters (`MAX_PATH`). */
  const MaxPath: nat := 260

  /** `ShellExecuteW` results above this value mean success. */
  const SuccessThreshold: int := 32

  // ---------------------------------------------------------------- expansion

  /**
   `ExpandEnvironmentVariables`: a string without '%' is returned as it is
   without asking the system; so is any string whose expansion the system
   reports as empty (length 0).
   */
  function ExpandEnvironmentVariables(os: Os, s: string): (r: string)
    ensures '%' !in s ==> r == s
    ensures os.expand(s).None? ==> r == s
    ensures r != s ==> '%' in s && os.expand(s) == Some(r)
    ensures '%' in s && os.expand(s).Some? ==> r == os.expand(s).value
  {
    if '%' !in s then s
    else match os.expand(s)
      case None => s
      case Some(e) => e
  }

  // ---------------------------------------------------------------- path resolution

  /**
   `SearchPathW`'s return for a buffer of `size` UTF-16 code units: 0 when
   nothing is found, the path's length when it fits, else the size needed
   with its terminator.
   */
  function SearchPathReturn(found: Option<string>, size: nat): nat {
    match found
    case None => 0
    case Some(p) => if WideLength(p) < size then WideLength(p) else WideLength(p) + 1
  }

  /** What the search step yields: a found path, unless the system reported nothing or an empty path. */
  function SearchResult(os: Os, target: string): Option<string> {
    match os.searchPath(target)
    case Some(p) => if p == [] then None else Some(p)
    case None => None
  }

  /**
   The `SearchPathW` loop of `ResolveExecutablePath`: starts with `MAX_PATH`
   code units and doubles the buffer while the reported length does not fit;
   a report of 0 ends the search. It returns the system's answer whole, never
   a truncated path.
   */
  method SearchPathGrowing(os: Os, target: string) returns (r: Option<string>)
    ensures r == SearchResult(os, target)
  {
    var found := os.searchPath(target);
    var size := MaxPath;
    while true
      invariant size >= MaxPath
      decreases (if found.Some? then WideLength(found.value) + 1 else 0) - size
    {
      var len := SearchPathReturn(found, size);
      if len == 0 {
        return None;
      }
      if len < size {
        // the buffer cut to the reported length holds the whole path
        assert found.Some? && len == WideLength(found.value) && found.value != [];
        return Some(found.value);
      }
      size := size * 2;
    }
  }

  /** The file in the launcher's own directory that is probed first. */
  function AppDirCandidate(os: Os, target: string): string {
    os.join(os.appDir, target)
  }

  predicate FoundInAppDir(os: Os, target: string) {
    os.appDir != [] && os.fileExists(AppDirCandidate(os, target))
  }

  /**
   `ResolveExecutablePath`: the launcher's directory first, then the system
   search path, and otherwise the name unchanged.
   */
  function ResolveExecutablePath(os: Os, target: string): (r: string)
    ensures FoundInAppDir(os, target) ==> r == AppDirCandidate(os, target)
    ensures !FoundInAppDir(os, target) && SearchResult(os, target).Some? ==> r == SearchResult(os, target).value
    ensures !FoundInAppDir(os, target) && SearchResult(os, target).None? ==> r == target
  {
    if FoundInAppDir(os, target) then AppDirCandidate(os, target)
    else match SearchResult(os, target)
      case Some(p) => p
      case None => target
  }

  /** The places the resolver consults, in order; each yields a path or nothing. */
  function SearchOrder(os: Os, target: string): seq<Option<string>> {
    [ if FoundInAppDir(os, target) then Some(AppDirCandidate(os, target)) else None,
      SearchResult(os, target) ]
  }

  /** First path any place yields, or `fallback` when none does. */
  function FirstFound(places: seq<Option<string>>, fallback: string): (r: string)
    ensures r == fallback || exists k :: 0 <= k < |places| && places[k] == Some(r)
    ensures (forall k :: 0 <= k < |places| ==> places[k].None?) ==> r == fallback
    ensures forall k :: 0 <= k < |places| && places[k].Some? && (forall j :: 0 <= j < k ==> places[j].None?) ==>
      r == places[k].value
  {
    if |places| == 0 then fallback
    else match places[0]
      case Some(p) => p
      case None => FirstFound(places[1..], fallback)
  }

  /** The resolver is "first match wins" over its search order, falling back to the unchanged name. */
  lemma ResolveIsFirstMatch(os: Os, target: string)
    ensures ResolveExecutablePath(os, target) == FirstFound(SearchOrder(os, target), target)
  {
    var order := SearchOrder(os, target);
    assert order[1..][1..] == [];
  }

  /** A non-empty name never resolves to the empty string, so the launcher's emptiness guard only rejects a degenerate path append. */
  lemma ResolveNonEmpty(os: Os, target: string)
    requires target != []
    requires os.appDir != [] ==> AppDirCandidate(os, target) != []
    ensures ResolveExecutablePath(os, target) != []
  {
  }

  // ---------------------------------------------------------------- launching

  predicate Succeeded(code: int) {
    code > SuccessThreshold
  }

  /** "runas" asks for elevation, "open" does not. */
  function Verb(asAdmin: bool): (v: string)
    ensures v == "runas" || v == "open"
    ensures v == "runas" <==> asAdmin
  {
    if asAdmin then "runas" else "open"
  }

  /** Empty parameters are passed as a null pointer. */
  function ParamsArgument(params: string): (a: Option<string>)
    ensures a.None? <==> params == []
    ensures a.Some? ==> a.value == params
  {
    if params == [] then None else Some(params)
  }

  /** The message categories of the failure report. */
  datatype ErrorCategory =
    | OutOfResources       // 0
    | FileNotFound         // ERROR_FILE_NOT_FOUND (2)
    | PathNotFound         // ERROR_PATH_NOT_FOUND (3)
    | BadFormat            // ERROR_BAD_FORMAT (11)
    | AccessDenied         // SE_ERR_ACCESSDENIED (5)
    | AssociationIncomplete // SE_ERR_ASSOCINCOMPLETE (27)
    | NoAssociation        // SE_ERR_NOASSOC (31)
    | OutOfMemory          // SE_ERR_OOM (8)
    | UnknownError

  /** The `switch` over the final result code: a named category for each listed code, "unknown" for all others. */
  function Classify(code: int): (c: ErrorCategory)
    ensures c != UnknownError ==> CategoryCode(c) == Some(code)
    ensures c == UnknownError <==> code !in {0, 2, 3, 5, 8, 11, 27, 31}
  {
    if code == 0 then OutOfResources
    else if code == 2 then FileNotFound
    else if code == 3 then PathNotFound
    else if code == 11 then BadFormat
    else if code == 5 then AccessDenied
    else if code == 27 then AssociationIncomplete
    else if code == 31 then NoAssociation
    else if code == 8 then OutOfMemory
    else UnknownError
  }

  /** The Windows result code each named category stands for; none for the catch-all. */
  function CategoryCode(c: ErrorCategory): Option<int> {
    match c
    case OutOfResources => Some(0)
    case FileNotFound => Some(2)
    case PathNotFound => Some(3)
    case BadFormat => Some(11)
    case AccessDenied => Some(5)
    case AssociationIncomplete => Some(27)
    case NoAssociation => Some(31)
    case OutOfMemory => Some(8)
    case UnknownError => None
  }

  /** Classification and category codes are inverse: each named category is chosen by exactly its own code, all others fall to "unknown". */
  lemma ClassifyInvertsCategoryCode(code: int, c: ErrorCategory)
    ensures Classify(code) == c <==> (CategoryCode(c) == Some(code) || (c == UnknownError && CategoryCode(Classify(code)).None?))
    ensures Classify(code) == UnknownError <==> code !in {0, 2, 3, 5, 8, 11, 27, 31}
  {
  }

  function CategoryText(c: ErrorCategory): (t: string)
    ensures |t| > 0
  {
    match c
    case OutOfResources => "The operating system is out of memory or resources."
    case FileNotFound => "The specified file was not found."
    case PathNotFound => "The specified path was not found."
    case BadFormat => "The .exe file is invalid."
    case AccessDenied => "Access is denied."
    case AssociationIncomplete => "The filename association is incomplete or invalid."
    case NoAssociation => "There is no application associated with the given file name extension."
    case OutOfMemory => "Not enough memory to complete the operation."
    case UnknownError => "An unknown error occurred."
  }

  /** What the failure report names: the path as configured, the last result code and its category. */
  datatype Diagnostic = Diagnostic(file: string, code: int, category: ErrorCategory)

  const ReportHeader: string := "ShellExecuteW failed.\nFile: "

  const CodeLabel: string := "\nError code: "

  /**
   The text of the failure message box: the header, the file, the labelled
   result code in decimal, and after a blank line the category's sentence.
   */
  function DiagnosticText(d: Diagnostic): (text: string)
    ensures |ReportHeader| + |d.file| + |CodeLabel| + |IntToString(d.code)| + 2 + |CategoryText(d.category)| == |text|
    ensures text[..|ReportHeader|] == ReportHeader
    ensures text[|ReportHeader|..|ReportHeader| + |d.file|] == d.file
    ensures text[|ReportHeader| + |d.file|..|ReportHeader| + |d.file| + |CodeLabel|] == CodeLabel
    ensures var at := |ReportHeader| + |d.file| + |CodeLabel|;
      text[at..at + |IntToString(d.code)|] == IntToString(d.code)
    ensures var end := |ReportHeader| + |d.file| + |CodeLabel| + |IntToString(d.code)|;
      text[end..end + 2] == "\n\n"
    ensures text[|text| - |CategoryText(d.category)|..] == CategoryText(d.category)
  {
    ReportHeader + d.file + CodeLabel + IntToString(d.code) + "\n\n" + CategoryText(d.category)
  }

  datatype LaunchResult = LaunchResult(ok: bool, calls: seq<ShellCall>, diagnostic: Option<Diagnostic>)

  function CodeOf(os: Os, c: ShellCall): int {
    os.shellExecute(c)
  }

  /**
   `LaunchApplication`: expands both strings, makes one `ShellExecuteW` call,
   and on failure resolves the expanded path and retries once when that gives
   a different, non-empty path. A failure is reported with the unexpanded
   path, the last result code and its category.
   */
  function LaunchApplication(os: Os, filePath: string, parameters: string, asAdmin: bool): (r: LaunchResult)
    ensures 1 <= |r.calls| <= 2
    ensures forall k :: 0 <= k < |r.calls| ==>
      r.calls[k].verb == Verb(asAdmin) && r.calls[k].params == ParamsArgument(ExpandEnvironmentVariables(os, parameters))
    ensures r.calls[0].file == ExpandEnvironmentVariables(os, filePath)
    ensures |r.calls| == 2 <==>
      var expanded := ExpandEnvironmentVariables(os, filePath);
      var resolved := ResolveExecutablePath(os, expanded);
      !Succeeded(CodeOf(os, r.calls[0])) && resolved != [] && resolved != expanded
    ensures |r.calls| == 2 ==> r.calls[1].file == ResolveExecutablePath(os, r.calls[0].file) && r.calls[1].file != r.calls[0].file
    ensures r.ok <==> Succeeded(CodeOf(os, r.calls[|r.calls| - 1]))
    ensures r.ok <==> r.diagnostic.None?
    ensures !r.ok ==> var code := CodeOf(os, r.calls[|r.calls| - 1]);
      r.diagnostic == Some(Diagnostic(filePath, code, Classify(code)))
  {
    var verb := Verb(asAdmin);
    var expandedPath := ExpandEnvironmentVariables(os, filePath);
    var params := ParamsArgument(ExpandEnvironmentVariables(os, parameters));
    var first := ShellCall(verb, expandedPath, params);
    if Succeeded(os.shellExecute(first)) then
      LaunchResult(true, [first], None)
    else
      var absPath := ResolveExecutablePath(os, expandedPath);
      var calls := if absPath != [] && absPath != expandedPath then [first, ShellCall(verb, absPath, params)] else [first];
      var code := os.shellExecute(calls[|calls| - 1]);
      if Succeeded(code) then LaunchResult(true, calls, None)
      else LaunchResult(false, calls, Some(Diagnostic(filePath, code, Classify(code))))
  }

  /** The launch succeeds exactly when the first attempt does, or a retry is made and it does. */
  lemma LaunchSucceedsIff(os: Os, filePath: string, parameters: string, asAdmin: bool)
    ensures var r := LaunchApplication(os, filePath, parameters, asAdmin);
      r.ok <==> Succeeded(CodeOf(os, r.calls[0])) || (|r.calls| == 2 && Succeeded(CodeOf(os, r.calls[1])))
  {
  }

  /** A failed first attempt is rescued when resolution finds a different path that launches. */
  lemma RetryRescuesLaunch(os: Os, filePath: string, parameters: string, asAdmin: bool)
    requires var expanded := ExpandEnvironmentVariables(os, filePath);
      var resolved := ResolveExecutablePath(os, expanded);
      var params := ParamsArgument(ExpandEnvironmentVariables(os, parameters));
      && !Succeeded(os.shellExecute(ShellCall(Verb(asAdmin), expanded, params)))
      && resolved != [] && resolved != expanded
      && Succeeded(os.shellExecute(ShellCall(Verb(asAdmin), resolved, params)))
    ensures LaunchApplication(os, filePath, parameters, asAdmin).ok
  {
  }

  /**
   The failure report always names the unexpanded path right after its
   header and ends with a non-empty category sentence chosen by the last code.
   */
  lemma FailureReportNamesPathAndCategory(os: Os, filePath: string, parameters: string, asAdmin: bool)
    requires !LaunchApplication(os, filePath, parameters, asAdmin).ok
    ensures var d := LaunchApplication(os, filePath, parameters, asAdmin).diagnostic.value;
      var text := DiagnosticText(d);
      && |ReportHeader| + |filePath| <= |text|
      && text[|ReportHeader|..|ReportHeader| + |filePath|] == filePath
      && |CategoryText(d.category)| > 0
      && text[|text| - |CategoryText(d.category)|..] == CategoryText(d.category)
  {
  }

  /** `OnLaunchButtonClick`: a button with an empty path launches nothing. */
  function OnLaunchButtonClick(os: Os, path: string, parameters: string, adminMode: bool): (r: Option<LaunchResult>)
    ensures r.None? <==> path == []
    ensures r.Some? ==> |r.value.calls| >= 1 && r.value.calls[0].file == ExpandEnvironmentVariables(os, path)
    ensures r.Some? ==> r.value == LaunchApplication(os, path, parameters, adminMode)
  {
    if path == [] then None else Some(LaunchApplication(os, path, parameters, adminMode))
  }
}

=== FILE: profile.dfy ===
/**
 The INI configuration store behind `GetPrivateProfileStringW`,
 `GetPrivateProfileIntW` and `WritePrivateProfileStringW`. The file's text
 format is the operating system's business; the model sees it as a map from
 (section, key) to the stored string. The system matches section and key
 names without regard to letter case, so a `Key` stands for every spelling
 that differs only in case, and the map is keyed by the launcher's own
 spellings ("Tabs", "Tab0", "Button0_Name", ...): a hand-edited
 `button0_name` in section `tab0` is the entry `Key("Tab0", "Button0_Name")`.
 */
module Profile {
  import opened WideString


  datatype Key = Key(section: string, name: string)

  type Store = map<Key, string>

  /** Initial buffer size of `ReadStringFromIni`, in characters. */
  const InitialBufferSize: nat := 256

  /** `GetPrivateProfileStringW` with a large enough buffer: the stored value, or `default` when the key is absent. */
  function GetString(store: Store, section: string, name: string, default: string): string {
    if Key(section, name) in store then store[Key(section, name)] else default
  }

  /**
   `GetPrivateProfileIntW`: `default` when the key is absent, otherwise the
   stored text read as a number by `parseInt`, the operating system's
   conversion.
   */
  function GetInt(store: Store, section: string, name: string, default: int, parseInt: string -> int): int {
    if Key(section, name) in store then parseInt(store[Key(section, name)]) else default
  }

  /**
   What `GetPrivateProfileStringW` reports for a value read into a buffer of
   `size` UTF-16 code units: at most size - 1 units are copied (one slot is
   left for the terminator) and the count copied is returned.
   */
  function CharsCopied(value: string, size: nat): (copied: nat)
    requires size >= 1
    ensures copied <= WideLength(value) && copied <= size - 1
    ensures copied == WideLength(value) || copied == size - 1
  {
    if WideLength(value) < size - 1 then WideLength(value) else size - 1
  }

  /** The buffer sizes `ReadStringFromIni` can reach: 256 doubled any number of times. */
  predicate IsGrownSize(size: nat)
    decreases size
  {
    size == InitialBufferSize || (size > InitialBufferSize && size % 2 == 0 && IsGrownSize(size / 2))
  }

  /**
   `ReadStringFromIni`: reads into a buffer of 256 code units and doubles it
   until the copy count is strictly below size - 1, then returns the buffer's
   contents. The value is returned whole, never truncated, and the final
   buffer is the first one in the doubling sequence that holds all its code
   units plus two.
   */
  method ReadStringFromIni(store: Store, section: string, name: string, default: string)
    returns (r: string, size: nat)
    ensures r == GetString(store, section, name, default)
    ensures IsGrownSize(size)
    ensures WideLength(r) + 2 <= size
    ensures size == InitialBufferSize || size / 2 <= WideLength(r) + 1
  {
    var value := GetString(store, section, name, default);
    size := InitialBufferSize;
    while true
      invariant IsGrownSize(size)
      invariant size == InitialBufferSize || size / 2 <= WideLength(value) + 1
      decreases WideLength(value) + 2 - size
    {
      var copied := CharsCopied(value, size);
      if copied < size - 1 {
        // every code unit was copied, so the buffer holds the whole value
        return value, size;
      }
      size := size * 2;
    }
  }

  /**
   `WritePrivateProfileStringW`: when the write succeeds (`succeeds`, an
   outcome the model cannot see) the key now holds `value`; when it fails the
   store is unchanged. The flag is the call's result.
   */
  function WriteString(store: Store, key: Key, value: string, succeeds: bool): (r: (Store, bool))
    ensures r.1 == succeeds
    ensures succeeds ==> key in r.0 && r.0[key] == value
    ensures forall k :: k != key ==> (k in r.0 <==> k in store)
    ensures forall k :: k != key && k in store ==> r.0[k] == store[k]
    ensures !succeeds ==> r.0 == store
  {
    if succeeds then (store[key := value], true) else (store, false)
  }
}

=== FILE: trim.dfy ===
/**
 The launcher's whitespace trimming (`ltrim`, `rtrim`, `trim`). The character
 class is the C runtime's `iswspace`, whose table is not part of the program,
 so every function takes it as the parameter `isSpace`.
 */
module Whitespace {

  ghost predicate AllSpace(s: string, isSpace: char -> bool) {
    forall k :: 0 <= k < |s| ==> isSpace(s[k])
  }

  /** Neither end of `s` is whitespace (vacuously true of the empty string). */
  predicate Trimmed(s: string, isSpace: char -> bool) {
    |s| == 0 || (!isSpace(s[0]) && !isSpace(s[|s| - 1]))
  }

  /** Position `std::find_if` reaches when scanning from the front for a non-space; |s| when there is none. */
  function FirstNonSpace(s: string, isSpace: char -> bool): (i: nat)
    ensures i <= |s|
    ensures forall k :: 0 <= k < i ==> isSpace(s[k])
    ensures i < |s| ==> !isSpace(s[i])
    decreases |s|
  {
    if |s| == 0 || !isSpace(s[0]) then 0 else 1 + FirstNonSpace(s[1..], isSpace)
  }

  /** One past the last non-space character (the `base()` of the reverse scan); 0 when there is none. */
  function EndOfNonSpace(s: string, isSpace: char -> bool): (j: nat)
    ensures j <= |s|
    ensures forall k :: j <= k < |s| ==> isSpace(s[k])
    ensures j > 0 ==> !isSpace(s[j - 1])
    decreases |s|
  {
    if |s| == 0 || !isSpace(s[|s| - 1]) then |s| else EndOfNonSpace(s[..|s| - 1], isSpace)
  }

  /** `ltrim`: erases the whitespace prefix. */
  function LTrim(s: string, isSpace: char -> bool): (r: string)
    ensures |r| <= |s| && r == s[|s| - |r|..]
    ensures AllSpace(s[..|s| - |r|], isSpace)
    ensures |r| == 0 || !isSpace(r[0])
  {
    s[FirstNonSpace(s, isSpace)..]
  }

  /** `rtrim`: erases the whitespace suffix. */
  function RTrim(s: string, isSpace: char -> bool): (r: string)
    ensures |r| <= |s| && r == s[..|r|]
    ensures AllSpace(s[|r|..], isSpace)
    ensures |r| == 0 || !isSpace(r[|r| - 1])
  {
    s[..EndOfNonSpace(s, isSpace)]
  }

  /**
   `trim`: `ltrim` followed by `rtrim`. The result is the slice of `s` that
   starts at its first non-space character and is followed only by whitespace,
   and it has whitespace at neither end.
   */
  function Trim(s: string, isSpace: char -> bool): (r: string)
    ensures Trimmed(r, isSpace)
    ensures var i := FirstNonSpace(s, isSpace);
      i + |r| <= |s| && r == s[i..i + |r|] && AllSpace(s[i + |r|..], isSpace)
  {
    var l := LTrim(s, isSpace);
    var r := RTrim(l, isSpace);
    assert |r| > 0 ==> r[0] == l[0];
    r
  }

  /** A string with no whitespace at either end is left unchanged. */
  lemma {:induction false} TrimOfTrimmed(s: string, isSpace: char -> bool)
    requires Trimmed(s, isSpace)
    ensures Trim(s, isSpace) == s
  {
    if |s| > 0 {
      assert FirstNonSpace(s, isSpace) == 0;
    }
  }

  /** Trimming twice is trimming once. */
  lemma TrimIdempotent(s: string, isSpace: char -> bool)
    ensures Trim(Trim(s, isSpace), isSpace) == Trim(s, isSpace)
  {
    TrimOfTrimmed(Trim(s, isSpace), isSpace);
  }

  lemma SpaceFrom(s: string, isSpace: char -> bool, from: nat)
    requires from <= |s| && AllSpace(s[from..], isSpace)
    ensures forall k :: from <= k < |s| ==> isSpace(s[k])
  {
    forall k | from <= k < |s| ensures isSpace(s[k]) {
      assert s[k] == s[from..][k - from];
    }
  }

  lemma SpaceBefore(s: string, isSpace: char -> bool, upto: nat)
    requires upto <= |s| && AllSpace(s[..upto], isSpace)
    ensures forall k :: 0 <= k < upto ==> isSpace(s[k])
  {
    forall k | 0 <= k < upto ensures isSpace(s[k]) {
      assert s[k] == s[..upto][k];
    }
  }

  /**
   Reference characterisation: whenever `s` splits into a whitespace prefix
   s[..i], a middle s[i..j] that is empty or has non-space ends, and a
   whitespace suffix s[j..], `Trim` returns exactly that middle.
   */
  lemma {:induction false} TrimUnique(s: string, isSpace: char -> bool, i: nat, j: nat)
    requires i <= j <= |s|
    requires AllSpace(s[..i], isSpace) && AllSpace(s[j..], isSpace)
    requires Trimmed(s[i..j], isSpace)
    ensures Trim(s, isSpace) == s[i..j]
  {
    var f := FirstNonSpace(s, isSpace);
    var r := Trim(s, isSpace);
    SpaceBefore(s, isSpace, i);
    SpaceFrom(s, isSpace, j);
    SpaceFrom(s, isSpace, f + |r|);
    if i < j {
      assert !isSpace(s[i]) && !isSpace(s[j - 1]);
      assert f == i;
      assert |r| > 0 ==> !isSpace(s[f + |r| - 1]);
      assert |r| == j - i;
    }
  }
}

=== FILE: utf16.dfy ===
/**
 `WriteUtf16LeFile`: the byte layout of the configuration file the launcher
 creates when none exists. A `std::wstring` on Windows is a sequence of
 16-bit code units; the file is the byte-order mark FF FE followed by each
 unit's low byte, then its high byte.
 */
module Utf16 {
  import opened Wrappers

  newtype byte = x: int | 0 <= x < 0x100

  newtype u16 = x: int | 0 <= x < 0x1_0000

  const Bom: seq<byte> := [0xFF, 0xFE]

  function LowByte(u: u16): byte {
    (u as int % 0x100) as byte
  }

  function HighByte(u: u16): byte {
    (u as int / 0x100) as byte
  }

  function Combine(lo: byte, hi: byte): (u: u16)
    ensures LowByte(u) == lo && HighByte(u) == hi
  {
    (lo as int + 0x100 * hi as int) as u16
  }

  /** Two little-endian bytes per code unit, in order. */
  function UnitsToBytes(units: seq<u16>): (bytes: seq<byte>)
    ensures |bytes| == 2 * |units|
    ensures forall k :: 0 <= k < |units| ==>
      bytes[2 * k] == LowByte(units[k]) && bytes[2 * k + 1] == HighByte(units[k])
  {
    if |units| == 0 then []
    else [LowByte(units[0]), HighByte(units[0])] + UnitsToBytes(units[1..])
  }

  /** Reads pairs of little-endian bytes back as code units. */
  function BytesToUnits(bytes: seq<byte>): seq<u16>
    requires |bytes| % 2 == 0
  {
    if |bytes| == 0 then []
    else [Combine(bytes[0], bytes[1])] + BytesToUnits(bytes[2..])
  }

  /** The bytes of a file holding `text`. */
  function EncodeUtf16Le(text: seq<u16>): (bytes: seq<byte>)
    ensures |bytes| == 2 + 2 * |text|
    ensures bytes[..2] == Bom
  {
    Bom + UnitsToBytes(text)
  }

  /** Reads a file back: present only when it starts with the mark and has whole code units. */
  function DecodeUtf16Le(bytes: seq<byte>): Option<seq<u16>> {
    if |bytes| < 2 || bytes[..2] != Bom || |bytes| % 2 != 0 then None
    else Some(BytesToUnits(bytes[2..]))
  }

  lemma {:induction false} BytesOfUnitsRoundTrip(units: seq<u16>)
    ensures BytesToUnits(UnitsToBytes(units)) == units
    decreases |units|
  {
    if |units| > 0 {
      var bytes := UnitsToBytes(units);
      assert bytes[2..] == UnitsToBytes(units[1..]);
      BytesOfUnitsRoundTrip(units[1..]);
    }
  }

  lemma {:induction false} UnitsOfBytesRoundTrip(bytes: seq<byte>)
    requires |bytes| % 2 == 0
    ensures UnitsToBytes(BytesToUnits(bytes)) == bytes
    decreases |bytes|
  {
    if |bytes| > 0 {
      UnitsOfBytesRoundTrip(bytes[2..]);
      assert bytes == [bytes[0], bytes[1]] + bytes[2..];
    }
  }

  /** Decoding what was encoded gives the text back. */
  lemma DecodeEncode(text: seq<u16>)
    ensures DecodeUtf16Le(EncodeUtf16Le(text)) == Some(text)
  {
    var bytes := EncodeUtf16Le(text);
    assert bytes[2..] == UnitsToBytes(text);
    BytesOfUnitsRoundTrip(text);
  }

  /** Every byte string that decodes is the encoding of what it decodes to. */
  lemma EncodeDecode(bytes: seq<byte>)
    requires DecodeUtf16Le(bytes).Some?
    ensures EncodeUtf16Le(DecodeUtf16Le(bytes).value) == bytes
  {
    UnitsOfBytesRoundTrip(bytes[2..]);
    assert bytes == bytes[..2] + bytes[2..];
  }

  /**
   `WriteUtf16LeFile`: false when the file cannot be opened; otherwise the
   file holds the encoding of `text` and the result is true. Errors while
   writing are not checked by the program, so an opened file always reports
   success.
   */
  function WriteUtf16LeFile(isOpen: bool, text: seq<u16>): (r: Option<seq<byte>>)
    ensures r.None? <==> !isOpen
    ensures r.Some? ==> |r.value| == 2 + 2 * |text| && r.value[0] == 0xFF && r.value[1] == 0xFE
    ensures r.Some? ==> DecodeUtf16Le(r.value) == Some(text)
  {
    DecodeEncode(text);
    if isOpen then Some(EncodeUtf16Le(text)) else None
  }
}

=== FILE: wide.dfy ===
/**
 Lengths of wide strings. A `std::wstring` on Windows holds UTF-16 code
 units, so a character outside the Basic Multilingual Plane occupies two
 units; `length()` and the INI API's buffer sizes count units, not characters.
 */
module WideString {

  /** Code units a character occupies in UTF-16. */
  function CharUnits(c: char): nat {
    if c as int >= 0x1_0000 then 2 else 1
  }

  /** `std::wstring::length()` of the UTF-16 form of `s`. */
  function WideLength(s: string): (n: nat)
    ensures |s| <= n <= 2 * |s|
    decreases |s|
  {
    if |s| == 0 then 0 else CharUnits(s[0]) + WideLength(s[1..])
  }

  ghost predicate AllInBmp(s: string) {
    forall k :: 0 <= k < |s| ==> s[k] as int < 0x1_0000
  }

  lemma {:induction false} WideLengthConcat(a: string, b: string)
    ensures WideLength(a + b) == WideLength(a) + WideLength(b)
    decreases |a|
  {
    if |a| == 0 {
      assert a + b == b;
    } else {
      assert (a + b)[0] == a[0];
      assert (a + b)[1..] == a[1..] + b;
      WideLengthConcat(a[1..], b);
    }
  }

  /** A string of Basic Multilingual Plane characters has one unit per character. */
  lemma {:induction false} WideLengthOfBmp(s: string)
    requires AllInBmp(s)
    ensures WideLength(s) == |s|
    decreases |s|
  {
    if |s| > 0 {
      WideLengthOfBmp(s[1..]);
    }
  }
}

=== FILE: wrappers.dfy ===
/** The Option datatype used wherever the launcher's Win32 calls report "nothing". */
module Wrappers {

  datatype Option<+T> = None | Some(value: T)
}
